=== FILE: README.md ===
# To-do app core in Dafny

A model of the state-handling core of a small React Native to-do app
(Firebase for sign-in, the task documents and push messages). Every call into
Firebase is replaced by an `Outcome` parameter — `Success(value)` or
`Failure` — and each event handler runs as one atomic step.

Modules, one file each:

- `Wrappers` (wrappers.dfy): `Option` and `Outcome`.
- `JsString` (js_string.dfy): the JavaScript rules the screens rely on:
  `split` with a non-empty separator, `join`, `trim` (with ECMAScript's
  whitespace and line-terminator set), truthiness of an optional string, and `||`.
- `Types` (types.dfy): `TaskCategory` (six constructors), `Task`, `User`, `Alert`.
- `TaskStore` (task_store.dfy): the `tasks` collection as `map<string, Fields>`.
  It covers the record the app writes, the task it builds from a returned
  document, and what a correct answer to the owner query is.
- `AppRoot` (app_root.dfy): the list transforms (append, filter by id) and the class
  `App` with the fields `tasks`, `user` and `loading`. Its handlers are
  `FetchTasks`, `AddTask`, `DeleteTask` and the auth callback, and `Rendered` is the render gate.
- `Home` (home.dfy): class `HomeScreen`. It holds the delete-confirmation modal, the pending id and
  the banner for foreground messages.
- `AddTask` (add_task.dfy): class `AddTaskForm` with its form fields and date pickers.
  It also has the `split('T')[0]` date extraction and the submitted record.
- `Details` (details.dfy): `formatDate` and the description fallback.
- `Login` (login.dfy): the empty-field guard and class `LoginScreen` with its `loading` flag.
- `Settings` (settings.dfy): the preference key, class `Device` (the key-value
  storage and the remote topic subscription, which outlive a mount of the screen)
  and class `SettingsScreen` (the switch, the toggle and the load on mount).

Behaviour worth noting:

- A failed fetch leaves the list as it was.
- A task name is not checked for emptiness.
- The auth gate has three states: loading, signed out and signed in.
- The first category is spelled two ways in the source: the type declares it as a mis-encoded 'Šola' (types.ts:2), and the picker stores 'Šola' (screens/AddTask.tsx:77). The model merges the two into one constructor, `Sola`, whose label is the picker's string.
- `deadline` and `reminder` are plain strings. They have the `YYYY-MM-DD` shape only when the form produced them from an ISO timestamp.
- The owner filter belongs to the store's query (`where('userId', '==', uid)`). The app does no filtering of its own, so the ownership facts about a listing follow from what a correct query answer is.
- A toggle whose remote call succeeds but whose local write fails leaves the device subscribed and the preference unstored, with the error alert shown.

`formatDate` follows JavaScript exactly. Splitting on '-' follows `split`. A piece
missing from the three-way destructuring prints as `undefined`.

## Model

| member | source | states |
|---|---|---|
| Types.Label | screens/AddTask.tsx:77-82 | the string the picker stores for each category; the type's first literal (types.ts:2) is the same label mis-encoded |
| Types.SixCategories | types.ts:1-7 | there are exactly six categories, all distinct, every category is one of them, and their labels are pairwise different |
| TaskStore.StoredRecord | App.tsx:153-160 | the record written for a task: every field of the task except its id |
| TaskStore.FromDoc | App.tsx:139 | the task built from a returned document: its id is the document's key, the other fields its data |
| TaskStore.IsQueryAnswer | App.tsx:130-134 | a correct answer to the owner query: every returned document is stored and owned by uid, every owned document is returned, and no key twice |
| TaskStore.StoredRecordRoundTrip | App.tsx:138-160 | the record written for a task, read back as `{id: doc.id, ...data}`, is the task with the store's key as id; the written record carries every field except the id |
| TaskStore.FromDocs | App.tsx:138-140 | a fetched listing gives one task per document, in the order returned, each built from its document |
| TaskStore.ListingIsOwned | App.tsx:130-140 | every task in a correct listing for uid has `userId == uid` |
| TaskStore.EmptyListing | App.tsx:134-141 | the listing is empty exactly when the user owns no document (empty is a result, not an error) |
| TaskStore.CreateThenList | App.tsx:153-161 | after a task is created for uid, a listing of uid's tasks has exactly one record with the new key, equal to the task but for the id |
| TaskStore.DeleteThenList | App.tsx:171-173 | after a delete no listing holds the deleted key |
| TaskStore.UnownedTaskNotListed | screens/AddTask.tsx:45 | a task written with no userId never appears in any user's listing |
| AppRoot.Appended | App.tsx:161 | a successful add appends one element, the new task under the store's key, and keeps the earlier elements in order |
| AppRoot.WithoutId | App.tsx:173 | after the filter a task is in the list exactly when it was before and its id differs from the deleted one |
| AppRoot.WithoutIdConcat | App.tsx:173 | the filter distributes over concatenation, so survivors keep their relative order |
| AppRoot.WithoutIdUnchanged | App.tsx:173 | the filter leaves the list unchanged exactly when no task has the id |
| AppRoot.DeleteUndoesAdd | App.tsx:161-173 | deleting the key a successful add assigned gives the same list as deleting it before the add |
| AppRoot.App.constructor | App.tsx:59-61 | the root starts with an empty list, no user and loading |
| AppRoot.App.Phase | App.tsx:59-61 | the three auth states: loading exactly while the flag is set, authenticated exactly when not loading and a user is present |
| AppRoot.App.Rendered | App.tsx:217-234 | nothing is rendered exactly while loading; afterwards the login stack is shown exactly when there is no user, the tabs otherwise |
| AppRoot.App.OnAuthStateChanged | App.tsx:111-117 | the reported user is stored and loading ends; it leaves the loading phase |
| AppRoot.App.FetchTasks | App.tsx:119-148 | with no user the list is emptied and the store is not queried; otherwise the store is queried with the user's uid, success replaces the list with the mapped documents, failure leaves it |
| AppRoot.App.AddTask | App.tsx:150-166 | the record written is the task without its id; success appends the task under the store's key, failure leaves the list |
| AppRoot.App.DeleteTask | App.tsx:168-178 | success removes every task with the id; failure leaves the list |
| AppRoot.App.AuthChangedThenRefresh | App.tsx:111-148 | the auth callback followed by the refresh rerun for the new user: signing out empties the list, queries nothing and shows the login stack; signing in queries that uid and shows the tabs, with the answer's tasks on success and the old list on failure |
| AppRoot.SignInWithNoTasks | App.tsx:111-148 | a user who signs in and owns no task sees the tabs over an empty list, and the store was asked for that user's tasks |
| AppRoot.SignOutClearsList | App.tsx:111-148 | a signed-in user with a listing who signs out sees the login stack over an empty list, whatever the store would answer |
| Home.BannerText | screens/Home.tsx:30-35 | the banner is the body when it is non-empty, otherwise "Novo sporočilo"; never empty |
| Home.HomeScreen.BannerShown | screens/Home.tsx:75 | the banner is rendered exactly while the message is present and non-empty |
| Home.HomeScreen.constructor | screens/Home.tsx:22-26 | the modal is hidden, nothing is pending, there is no banner |
| Home.HomeScreen.ConfirmDelete | screens/Home.tsx:41-44 | the pending id becomes the swiped id and the modal opens |
| Home.HomeScreen.HandleConfirmDelete | screens/Home.tsx:46-55 | a truthy pending id is passed to the root's delete once and cleared; an absent or empty one is neither deleted nor cleared; the modal always closes; the list changes only through that delete |
| Home.HomeScreen.HandleCancelDelete | screens/Home.tsx:57-63 | the pending id is cleared and the modal closes; the task list is out of its frame |
| Home.HomeScreen.OnForegroundMessage | screens/Home.tsx:29-39 | a message with a notification overwrites the banner with its text and the banner shows; one without leaves it |
| Home.ConfirmThenCancel | screens/Home.tsx:41-63 | opening the confirmation then cancelling leaves the task list unchanged and the modal idle |
| AddTask.DatePart | screens/AddTask.tsx:43-44 | the result is the prefix of the timestamp before its first 'T' (all of it if none) and holds no 'T' |
| AddTask.DatePartOf | screens/AddTask.tsx:43-44 | for a 'T'-free date followed by 'T' and anything, the date part is that date |
| AddTask.DatePartOfTimestamp | screens/AddTask.tsx:43-44 | the date part of an ISO timestamp is its `YYYY-MM-DD` date |
| AddTask.AddTaskForm.constructor | screens/AddTask.tsx:20-28 | name and description are empty, category is Delo, both dates are the opening time, pickers closed, no user |
| AddTask.AddTaskForm.OnAuthStateChanged | screens/AddTask.tsx:30-35 | the form records the reported user |
| AddTask.AddTaskForm.SetName | screens/AddTask.tsx:57-62 | the name becomes the typed text |
| AddTask.AddTaskForm.SetDescription | screens/AddTask.tsx:65-70 | the description becomes the typed text |
| AddTask.AddTaskForm.SetCategory | screens/AddTask.tsx:74-76 | the category becomes the picked one |
| AddTask.AddTaskForm.OpenDeadlinePicker | screens/AddTask.tsx:87-88 | the deadline picker opens |
| AddTask.AddTaskForm.ConfirmDeadline | screens/AddTask.tsx:98-101 | the deadline becomes the picked date and the picker closes |
| AddTask.AddTaskForm.CancelDeadline | screens/AddTask.tsx:102 | the picker closes and the deadline is kept |
| AddTask.AddTaskForm.OpenReminderPicker | screens/AddTask.tsx:106-107 | the reminder picker opens |
| AddTask.AddTaskForm.ConfirmReminder | screens/AddTask.tsx:117-120 | the reminder becomes the picked date and the picker closes |
| AddTask.AddTaskForm.CancelReminder | screens/AddTask.tsx:121 | the picker closes and the reminder is kept |
| AddTask.AddTaskForm.Draft | screens/AddTask.tsx:38-46 | name, description and category are copied verbatim and unvalidated; deadline and reminder are each the text before the first 'T' of their timestamp, or all of it when it has none (the `YYYY-MM-DD` date when well formed); userId is the user's uid exactly when a user was reported |
| AddTask.AddTaskForm.HandleAddTask | screens/AddTask.tsx:37-52 | the draft is handed to the root's add, which writes it without id and appends it on success only; the form goes back in both cases |
| Details.FormatDate | screens/Details.tsx:12-15 | the day, month and year pieces of a '-' split printed as `D. M. Y`, a missing piece as `undefined` |
| Details.FormatDatePieces | screens/Details.tsx:12-15 | for `Y-M-D` with '-'-free pieces the output is `D. M. Y` |
| Details.FormatDateIgnoresExtra | screens/Details.tsx:13 | pieces after the third are ignored |
| Details.FormatDateShortInput | screens/Details.tsx:13-14 | missing pieces print as `undefined` |
| Details.FormatIsoDate | screens/Details.tsx:12-15 | a `YYYY-MM-DD` date becomes the 12-character `DD. MM. YYYY` |
| Details.FormatDateRoundTrip | screens/Details.tsx:13-14 | splitting the output of a well-formed date on ". " and joining the pieces reversed with '-' gives back the input |
| Details.DescriptionText | screens/Details.tsx:28 | the shown description is the task's own when non-empty, otherwise "Brez opisa"; never empty |
| Details.View | screens/Details.tsx:17-44 | the screen shows name, category label and id as they are, a non-empty description, the description fallback, and deadline and reminder each through `formatDate` (`DD. MM. YYYY` when well formed) |
| JsString.Truthy | screens/Home.tsx:75 | an optional string is truthy exactly when present and non-empty |
| JsString.OrElse | screens/Details.tsx:28 | JavaScript's logical or of an optional string and a fallback: the string when truthy, the fallback otherwise |
| JsString.Split | screens/Details.tsx:13 | `split` with a non-empty separator gives at least one piece |
| JsString.Join | screens/Details.tsx:13 | `join`: the pieces with the separator between each two |
| JsString.Trim | screens/Login.tsx:21 | `trim()` is a slice of the input with only whitespace before and after it, so only leading and trailing whitespace is removed; the result has no whitespace at either end, and a string with none at its ends is left as it is |
| JsString.TrimSlice | screens/Login.tsx:21 | what trimming keeps is the slice of the input after its leading whitespace and before its trailing whitespace |
| JsString.TrimEmptyIff | screens/Login.tsx:21 | `trim()` gives the empty string exactly when every character is whitespace |
| JsString.JoinSplit | screens/Details.tsx:13 | joining the pieces of a split with its separator gives the string back |
| JsString.SplitJoin | screens/Details.tsx:13 | splitting a join gives the pieces back when no piece holds the separator's first character |
| Login.MissingFields | screens/Login.tsx:21 | the guard: the trimmed email or the password is empty |
| Login.MissingFieldsIff | screens/Login.tsx:21 | the guard rejects exactly an all-whitespace email or an empty password; a whitespace-only password passes |
| Login.LoginScreen.constructor | screens/Login.tsx:16-18 | empty fields, not loading |
| Login.LoginScreen.SetEmail | screens/Login.tsx:48-49 | the email becomes the typed text |
| Login.LoginScreen.SetPassword | screens/Login.tsx:57-58 | the password becomes the typed text |
| Login.LoginScreen.ButtonDisabled | screens/Login.tsx:64 | the button is disabled exactly while loading |
| Login.LoginScreen.ButtonLabel | screens/Login.tsx:65-67 | "Prijavljanje..." while loading, "Prijava" otherwise |
| Login.LoginScreen.HandleLogin | screens/Login.tsx:20-36 | a missing field alerts, calls nothing, leaves loading; otherwise the provider gets the untrimmed email, loading stays raised on success, and failure lowers it and alerts |
| Login.EmptyPasswordScenario | screens/Login.tsx:20-24 | an empty password gives the alert and no provider call |
| Settings.PreferenceKey | screens/Settings.tsx:43 | the key is "motivational_messages_" followed by the uid |
| Settings.PreferenceKeyInjective | screens/Settings.tsx:43 | different uids have different keys |
| Settings.CallFor | screens/Settings.tsx:66-74 | true subscribes and false unsubscribes, both to the topic "motivational_messages" |
| Settings.SavedAlert | screens/Settings.tsx:80-86 | the confirmation says "vključeno" for true and "izključeno" for false |
| Settings.SavedSetting | screens/Settings.tsx:41-45 | a saved value is found exactly when a user is present and their key is stored |
| Settings.StoreThenLoad | screens/Settings.tsx:42-46 | what a toggle stores for a user is what that user's next mount loads; other users' settings are untouched |
| Settings.Device.constructor | screens/Settings.tsx:14 | the storage and the subscription start as given |
| Settings.SettingsScreen.constructor | screens/Settings.tsx:18-20 | the switch starts off on every mount |
| Settings.SettingsScreen.LoadSubscriptionStatus | screens/Settings.tsx:39-60 | with a stored value the switch takes it and the matching remote call is issued; with none, nothing changes and no call is made |
| Settings.SettingsScreen.ToggleMotivationalMessages | screens/Settings.tsx:62-95 | with no user nothing happens; otherwise the matching call is made; its failure changes nothing and alerts; its success sets the switch and the subscription, and then a successful local write stores the value with a confirmation, while a failed one leaves the storage and alerts |
| Settings.ToggleOnThenRemount | screens/Settings.tsx:39-95 | toggling on and remounting shows the switch on and re-issues the subscribe call |
| Settings.LocalWriteFailsThenRemount | screens/Settings.tsx:39-95 | with nothing stored, a toggle on whose local write fails leaves the device subscribed while the next mount shows the switch off and issues no call |

## Left out

- Firebase itself: sign-in, sign-out, token registration and refresh, the background handler, the initial notification and the permission request. Each remote result is a parameter and the rest is logging.
- The App-level foreground alert (App.tsx:83-93), navigation, rendering, styles and closing the swipeable row: these are presentation only.
- `handleLogout` (screens/Settings.tsx:97-103): a single external call whose error is only logged.
- The race between the refresh after a user change and an add or delete in flight: each handler is modelled as atomic.
- The effect's dependency check, which reruns the refresh only when the `user` value changes, and the refresh on mount: `AuthChangedThenRefresh` runs the refresh after every auth callback, and on mount the list is already empty.
- The conversion from a JavaScript `Date` to its ISO string, and time zones: the form holds the ISO strings and the pickers deliver them.
- The sample task list in tasks.ts: no code imports it.
- AddTask.AddTaskForm.HandleAddTask: the local id is a parameter rather than the current time in milliseconds, and "goes back once, after the add" is stated only as a flag that is set after the call.
- Settings.SettingsScreen.LoadSubscriptionStatus: a failed reconcile call on mount is an unhandled rejection in the app; the model only says the switch keeps the loaded value and the subscription flag is unchanged.
- Login.LoginScreen.HandleLogin: that `loading` is raised before the provider is called is shown only by the final state on success, not as an ordering of events.

=== FILE: add_task.dfy ===
/**
 * The add-task form: its fields, the two date pickers, and the record it
 * submits to the root's `AddTask`. Dates are held as the ISO timestamps the
 * pickers' dates print as; the form keeps their date part.
 */
module AddTask {
  import opened Wrappers
  import opened Types
  import opened JsString
  import opened TaskStore
  import opened AppRoot

  /** `iso.split('T')[0]`: the text before the first 'T', or all of it when there is none. */
  function DatePart(iso: string): (d: string)
    ensures |d| <= |iso| && d == iso[..|d|]
    ensures 'T' !in d
    ensures |d| < |iso| ==> iso[|d|] == 'T'
  {
    SplitFirst(iso, "T");
    Split(iso, "T")[0]
  }

  /** The date part is exactly the text before the first 'T'. */
  lemma DatePartOf(date: string, rest: string)
    requires 'T' !in date
    ensures DatePart(date + "T" + rest) == date
  {
    SplitPiece(date, "T", rest);
  }

  /** An ISO timestamp: a `YYYY-MM-DD` date, then 'T', then the time. */
  predicate IsIsoTimestamp(iso: string) {
    |iso| > 10 && IsIsoDate(iso[..10]) && iso[10] == 'T'
  }

  /** The date part of an ISO timestamp is its `YYYY-MM-DD` date. */
  lemma DatePartOfTimestamp(iso: string)
    requires IsIsoTimestamp(iso)
    ensures DatePart(iso) == iso[..10] && IsIsoDate(DatePart(iso))
  {
  }

  class AddTaskForm {
    var name: string
    var description: string
    var category: TaskCategory
    var deadline: string
    var reminder: string
    var deadlineOpen: bool
    var reminderOpen: bool
    var user: Option<User>

    /** A fresh form; both dates start at the moment the form opens. */
    constructor (now: string)
      ensures name == [] && description == [] && category == Delo
      ensures deadline == now && reminder == now
      ensures !deadlineOpen && !reminderOpen && user == None
    {
      name, description, category := [], [], Delo;
      deadline, reminder := now, now;
      deadlineOpen, reminderOpen := false, false;
      user := None;
    }

    /** The form's own auth-state subscription reports a user or nobody. */
    method OnAuthStateChanged(reported: Option<User>)
      modifies this`user
      ensures user == reported
    {
      user := reported;
    }

    method SetName(value: string)
      modifies this`name
      ensures name == value
    {
      name := value;
    }

    method SetDescription(value: string)
      modifies this`description
      ensures description == value
    {
      description := value;
    }

    method SetCategory(value: TaskCategory)
      modifies this`category
      ensures category == value
    {
      category := value;
    }

    method OpenDeadlinePicker()
      modifies this`deadlineOpen
      ensures deadlineOpen
    {
      deadlineOpen := true;
    }

    /** Confirming the deadline picker takes its date and closes it. */
    method ConfirmDeadline(picked: string)
      modifies this`deadline, this`deadlineOpen
      ensures deadline == picked && !deadlineOpen
    {
      deadline := picked;
      deadlineOpen := false;
    }

    /** Cancelling the deadline picker closes it and keeps the date. */
    method CancelDeadline()
      modifies this`deadlineOpen
      ensures !deadlineOpen
    {
      deadlineOpen := false;
    }

    method OpenReminderPicker()
      modifies this`reminderOpen
      ensures reminderOpen
    {
      reminderOpen := true;
    }

    /** Confirming the reminder picker takes its date and closes it. */
    method ConfirmReminder(picked: string)
      modifies this`reminder, this`reminderOpen
      ensures reminder == picked && !reminderOpen
    {
      reminder := picked;
      reminderOpen := false;
    }

    /** Cancelling the reminder picker closes it and keeps the date. */
    method CancelReminder()
      modifies this`reminderOpen
      ensures !reminderOpen
    {
      reminderOpen := false;
    }

    /**
     * The task the form submits under the local id `localId`: the text fields
     * and category verbatim and unvalidated, the date parts of both dates,
     * and the uid of the reported user if there is one.
     */
    function Draft(localId: string): (t: Task)
      reads this
      ensures t.id == localId && t.name == name && t.description == description && t.category == category
      ensures |t.deadline| <= |deadline| && t.deadline == deadline[..|t.deadline|] && 'T' !in t.deadline
      ensures |t.deadline| < |deadline| ==> deadline[|t.deadline|] == 'T'
      ensures |t.reminder| <= |reminder| && t.reminder == reminder[..|t.reminder|] && 'T' !in t.reminder
      ensures |t.reminder| < |reminder| ==> reminder[|t.reminder|] == 'T'
      ensures IsIsoTimestamp(deadline) ==> t.deadline == deadline[..10]
      ensures IsIsoTimestamp(reminder) ==> t.reminder == reminder[..10]
      ensures t.userId.Some? <==> user.Some?
      ensures user.Some? ==> t.userId == Some(user.value.uid)
    {
      assert IsIsoTimestamp(deadline) ==> DatePart(deadline) == deadline[..10] by {
        if IsIsoTimestamp(deadline) { DatePartOfTimestamp(deadline); }
      }
      assert IsIsoTimestamp(reminder) ==> DatePart(reminder) == reminder[..10] by {
        if IsIsoTimestamp(reminder) { DatePartOfTimestamp(reminder); }
      }
      Task(localId, name, description, category, DatePart(deadline), DatePart(reminder),
           if user.Some? then Some(user.value.uid) else None)
    }

    /**
     * Submit: hand the draft to the root's `AddTask`, then go back once,
     * whatever the store answered.
     */
    method HandleAddTask(app: App, localId: string, write: Outcome<string>)
      returns (submitted: Task, written: Fields, wentBack: bool)
      modifies app`tasks
      ensures submitted == Draft(localId)
      ensures written == StoredRecord(submitted)
      ensures write.Success? ==> app.tasks == Appended(old(app.tasks), submitted, write.value)
      ensures write.Failure? ==> app.tasks == old(app.tasks)
      ensures wentBack
    {
      submitted := Draft(localId);
      written := app.AddTask(submitted, write);
      wentBack := true;
    }
  }
}

=== FILE: app_root.dfy ===
/**
 * The composition root: the in-memory task list, the signed-in user and the
 * auth-loading flag, the handlers that reconcile the list with the store, and
 * the gate that chooses what is rendered.
 */
module AppRoot {
  import opened Wrappers
  import opened Types
  import opened TaskStore

  /** The list after a successful add: `[...tasks, {...newTask, id: key}]`. */
  function Appended(tasks: seq<Task>, newTask: Task, key: string): (r: seq<Task>)
    ensures |r| == |tasks| + 1 && r[..|tasks|] == tasks
    ensures r[|tasks|] == newTask.(id := key)
  {
    tasks + [newTask.(id := key)]
  }

  /** The list after a successful delete: `tasks.filter(task => task.id !== id)`. */
  function WithoutId(tasks: seq<Task>, id: string): (r: seq<Task>)
    ensures |r| <= |tasks|
    ensures forall t :: t in r <==> t in tasks && t.id != id
  {
    if tasks == [] then []
    else if tasks[0].id != id then [tasks[0]] + WithoutId(tasks[1..], id)
    else WithoutId(tasks[1..], id)
  }

  /**
   * Removal works piece by piece: the survivors of a concatenation are the
   * survivors of each part, in the same order.
   */
  lemma {:induction false} WithoutIdConcat(a: seq<Task>, b: seq<Task>, id: string)
    ensures WithoutId(a + b, id) == WithoutId(a, id) + WithoutId(b, id)
  {
    if a == [] {
      assert a + b == b;
    } else {
      assert (a + b)[1..] == a[1..] + b;
      WithoutIdConcat(a[1..], b, id);
    }
  }

  /** The list is left as it is exactly when no task carries the id. */
  lemma {:induction false} WithoutIdUnchanged(tasks: seq<Task>, id: string)
    ensures WithoutId(tasks, id) == tasks <==> forall i :: 0 <= i < |tasks| ==> tasks[i].id != id
  {
    if forall i :: 0 <= i < |tasks| ==> tasks[i].id != id {
      if tasks != [] {
        WithoutIdUnchanged(tasks[1..], id);
        assert forall i :: 0 <= i < |tasks[1..]| ==> tasks[1..][i].id != id by {
          forall i | 0 <= i < |tasks[1..]| ensures tasks[1..][i].id != id {
            assert tasks[1..][i] == tasks[i + 1];
          }
        }
        assert [tasks[0]] + tasks[1..] == tasks;
      }
    } else {
      var i :| 0 <= i < |tasks| && tasks[i].id == id;
      assert tasks[i] in tasks;
    }
  }

  /** Deleting the key a successful add assigned undoes the add. */
  lemma DeleteUndoesAdd(tasks: seq<Task>, newTask: Task, key: string)
    ensures WithoutId(Appended(tasks, newTask, key), key) == WithoutId(tasks, key)
  {
    WithoutIdConcat(tasks, [newTask.(id := key)], key);
    assert WithoutId([newTask.(id := key)], key) == [];
  }

  /** What the root renders: nothing, the login stack, or the tab navigator. */
  datatype Screen = Nothing | LoginStack | Tabs

  /** The three states of the auth gate. */
  datatype AuthPhase = Loading | Unauthenticated | Authenticated(user: User)

  class App {
    var tasks: seq<Task>
    var user: Option<User>
    var loading: bool

    constructor ()
      ensures tasks == [] && user == None && loading
    {
      tasks := [];
      user := None;
      loading := true;
    }

    /** The auth gate as a three-state machine over `loading` and `user`. */
    function Phase(): (p: AuthPhase)
      reads this
      ensures p == Loading <==> loading
      ensures p.Authenticated? <==> !loading && user.Some?
      ensures p.Authenticated? ==> Some(p.user) == user
    {
      if loading then Loading
      else if user.None? then Unauthenticated
      else Authenticated(user.value)
    }

    /** The gate: nothing while loading, then the login stack exactly when nobody is signed in. */
    function Rendered(): (s: Screen)
      reads this
      ensures s == Nothing <==> loading
      ensures s == LoginStack <==> !loading && user.None?
      ensures s == Tabs <==> !loading && user.Some?
    {
      match Phase()
      case Loading => Nothing
      case Unauthenticated => LoginStack
      case Authenticated(_) => Tabs
    }

    /** The identity provider reports a user or nobody; loading is over for good. */
    method OnAuthStateChanged(reported: Option<User>)
      modifies this`user, this`loading
      ensures user == reported && !loading
      ensures Phase() != Loading
    {
      user := reported;
      loading := false;
    }

    /**
     * Refresh after the user changes. With nobody signed in the list is
     * emptied and the store is not asked; otherwise the store is queried for
     * the user's uid and a successful answer replaces the list, a failure
     * leaves it.
     */
    method FetchTasks(answer: Outcome<seq<Doc>>) returns (queried: Option<string>)
      modifies this`tasks
      ensures queried == if user.Some? then Some(user.value.uid) else None
      ensures user.None? ==> tasks == []
      ensures user.Some? && answer.Success? ==> tasks == FromDocs(answer.value)
      ensures user.Some? && answer.Failure? ==> tasks == old(tasks)
    {
      if user.None? {
        tasks := [];
        return None;
      }
      queried := Some(user.value.uid);
      match answer
      case Success(docs) =>
        tasks := FromDocs(docs);
      case Failure =>
    }

    /**
     * Write a new task to the store. The record written carries every field
     * but the local id; on success the list gains the task under the key the
     * store assigned, on failure it is left as it was.
     */
    method AddTask(newTask: Task, write: Outcome<string>) returns (written: Fields)
      modifies this`tasks
      ensures written == StoredRecord(newTask)
      ensures write.Success? ==> tasks == Appended(old(tasks), newTask, write.value)
      ensures write.Failure? ==> tasks == old(tasks)
    {
      written := StoredRecord(newTask);
      match write
      case Success(key) =>
        tasks := Appended(tasks, newTask, key);
      case Failure =>
    }

    /** Delete a task from the store; on success drop every task with that id from the list. */
    method DeleteTask(id: string, removal: Outcome<()>)
      modifies this`tasks
      ensures removal.Success? ==> tasks == WithoutId(old(tasks), id)
      ensures removal.Failure? ==> tasks == old(tasks)
    {
      if removal.Success? {
        tasks := WithoutId(tasks, id);
      }
    }

    /**
     * An auth callback followed by the refresh the root reruns once the user
     * has changed: the reported user is stored, loading ends, and the list is
     * then refreshed for that user. Signing out empties the list and shows
     * the login stack.
     */
    method AuthChangedThenRefresh(reported: Option<User>, answer: Outcome<seq<Doc>>)
      returns (queried: Option<string>)
      modifies this`user, this`loading, this`tasks
      ensures user == reported && !loading
      ensures reported.None? ==> queried == None && tasks == [] && Rendered() == LoginStack
      ensures reported.Some? ==> queried == Some(reported.value.uid) && Rendered() == Tabs
      ensures reported.Some? && answer.Success? ==> tasks == FromDocs(answer.value)
      ensures reported.Some? && answer.Failure? ==> tasks == old(tasks)
    {
      OnAuthStateChanged(reported);
      queried := FetchTasks(answer);
    }
  }

  /**
   * A user signs in and owns no task: the tabs are shown over an empty list,
   * and the store was asked for that user's tasks.
   */
  method SignInWithNoTasks(u: User) returns (shown: Screen, listed: seq<Task>, queried: Option<string>)
    ensures shown == Tabs && listed == [] && queried == Some(u.uid)
  {
    var app := new App();
    assert app.Rendered() == Nothing;
    queried := app.AuthChangedThenRefresh(Some(u), Success([]));
    shown, listed := app.Rendered(), app.tasks;
  }

  /**
   * A signed-in user with a listing signs out: the list is emptied and the
   * login stack is shown, whatever the store would have answered.
   */
  method SignOutClearsList(u: User, docs: seq<Doc>, later: Outcome<seq<Doc>>)
    returns (before: seq<Task>, after: seq<Task>, shown: Screen)
    ensures before == FromDocs(docs) && after == [] && shown == LoginStack
  {
    var app := new App();
    var _ := app.AuthChangedThenRefresh(Some(u), Success(docs));
    before := app.tasks;
    var queried := app.AuthChangedThenRefresh(None, later);
    assert queried == None;
    after, shown := app.tasks, app.Rendered();
  }
}

=== FILE: details.dfy ===
/**
 * The read-only details screen: the description fallback and `formatDate`,
 * which rewrites `YYYY-MM-DD` as `DD. MM. YYYY` by splitting on '-' and
 * destructuring the first three pieces.
 */
module Details {
  import opened Wrappers
  import opened Types
  import opened JsString

  /** What a template literal prints for a piece the destructuring did not find. */
  const Undefined: string := "undefined"

  const NoDescription: string := "Brez opisa"

  /** The i-th piece of a destructured array: the piece, or `undefined` past the end. */
  function Piece(parts: seq<string>, i: nat): string {
    if i < |parts| then parts[i] else Undefined
  }

  /** `const [year, month, day] = date.split('-'); return `${day}. ${month}. ${year}`` */
  function FormatDate(date: string): string {
    var parts := Split(date, "-");
    Piece(parts, 2) + ". " + Piece(parts, 1) + ". " + Piece(parts, 0)
  }

  /** A date as the screen shows it: `DD. MM. YYYY`. */
  predicate IsDisplayDate(s: string) {
    && |s| == 12
    && s[2] == '.' && s[3] == ' ' && s[6] == '.' && s[7] == ' '
    && IsDigit(s[0]) && IsDigit(s[1]) && IsDigit(s[4]) && IsDigit(s[5])
    && forall i :: 8 <= i < 12 ==> IsDigit(s[i])
  }

  /** For three '-'-free pieces, the output is day, month and year joined by ". ". */
  lemma FormatDatePieces(y: string, m: string, d: string)
    requires '-' !in y && '-' !in m && '-' !in d
    ensures FormatDate(y + "-" + m + "-" + d) == d + ". " + m + ". " + y
  {
    assert y + "-" + m + "-" + d == y + "-" + (m + "-" + d);
    SplitPiece(y, "-", m + "-" + d);
    SplitPiece(m, "-", d);
    SplitWithoutSeparator(d, "-");
  }

  /** Pieces after the third are ignored. */
  lemma FormatDateIgnoresExtra(y: string, m: string, d: string, extra: string)
    requires '-' !in y && '-' !in m && '-' !in d
    ensures FormatDate(y + "-" + m + "-" + d + "-" + extra) == d + ". " + m + ". " + y
  {
    assert y + "-" + m + "-" + d + "-" + extra == y + "-" + (m + "-" + (d + "-" + extra));
    SplitPiece(y, "-", m + "-" + (d + "-" + extra));
    SplitPiece(m, "-", d + "-" + extra);
    SplitPiece(d, "-", extra);
  }

  /** With fewer than three pieces the missing ones print as `undefined`. */
  lemma FormatDateShortInput(y: string, m: string)
    requires '-' !in y && '-' !in m
    ensures FormatDate(y) == Undefined + ". " + Undefined + ". " + y
    ensures FormatDate(y + "-" + m) == Undefined + ". " + m + ". " + y
  {
    SplitWithoutSeparator(y, "-");
    SplitPiece(y, "-", m);
    SplitWithoutSeparator(m, "-");
  }

  /** The three number pieces of a `YYYY-MM-DD` date, none holding '-' or '.'. */
  lemma IsoDatePieces(s: string)
    requires IsIsoDate(s)
    ensures s == s[..4] + "-" + s[5..7] + "-" + s[8..]
    ensures forall c :: c in s[..4] || c in s[5..7] || c in s[8..] ==> IsDigit(c)
  {
  }

  /** A well-formed `YYYY-MM-DD` date becomes the 12-character `DD. MM. YYYY`. */
  lemma FormatIsoDate(s: string)
    requires IsIsoDate(s)
    ensures FormatDate(s) == s[8..] + ". " + s[5..7] + ". " + s[..4]
    ensures IsDisplayDate(FormatDate(s))
  {
    IsoDatePieces(s);
    FormatDatePieces(s[..4], s[5..7], s[8..]);
  }

  /** `parts` in reverse order: the first piece of the result is the last of `parts`. */
  function Reversed(parts: seq<string>): (r: seq<string>)
    ensures |r| == |parts|
    ensures forall i :: 0 <= i < |parts| ==> r[i] == parts[|parts| - 1 - i]
  {
    if parts == [] then [] else Reversed(parts[1..]) + [parts[0]]
  }

  lemma ReversedThree(a: string, b: string, c: string)
    ensures Reversed([a, b, c]) == [c, b, a]
  {
    assert [a, b, c][1..] == [b, c] && [b, c][1..] == [c];
    assert Reversed([c]) == [c];
  }

  lemma JoinThree(a: string, b: string, c: string, sep: string)
    ensures Join([a, b, c], sep) == a + sep + b + sep + c
  {
    assert [a, b, c][1..] == [b, c] && [b, c][1..] == [c];
    assert Join([b, c], sep) == b + sep + c;
    assert Join([a, b, c], sep) == a + sep + (b + sep + c);
  }

  /**
   * Splitting the output of a well-formed date on ". " and joining the pieces
   * in reverse order with '-' gives the input back.
   */
  lemma FormatDateRoundTrip(s: string)
    requires IsIsoDate(s)
    ensures Join(Reversed(Split(FormatDate(s), ". ")), "-") == s
  {
    var y, m, d := s[..4], s[5..7], s[8..];
    IsoDatePieces(s);
    FormatIsoDate(s);
    JoinThree(d, m, y, ". ");
    assert forall i :: 0 <= i < 3 ==> '.' !in [d, m, y][i];
    SplitJoin([d, m, y], ". ");
    ReversedThree(d, m, y);
    JoinThree(y, m, d, "-");
  }

  /** The description shown: the task's own, or a placeholder when it is empty. */
  function DescriptionText(t: Task): (r: string)
    ensures r != []
    ensures t.description != [] ==> r == t.description
    ensures t.description == [] ==> r == NoDescription
  {
    OrElse(Some(t.description), NoDescription)
  }

  /** The strings the details screen renders for a task. */
  datatype DetailsView = DetailsView(
    title: string,
    category: string,
    description: string,
    deadline: string,
    reminder: string,
    id: string)

  /** The view of a task; deadline and reminder go through the same formatting. */
  function View(t: Task): (v: DetailsView)
    ensures v.title == t.name && v.category == Label(t.category) && v.id == t.id
    ensures v.description == DescriptionText(t) && v.description != []
    ensures v.deadline == FormatDate(t.deadline) && v.reminder == FormatDate(t.reminder)
    ensures IsIsoDate(t.deadline) ==> IsDisplayDate(v.deadline)
    ensures IsIsoDate(t.reminder) ==> IsDisplayDate(v.reminder)
  {
    assert IsIsoDate(t.deadline) ==> IsDisplayDate(FormatDate(t.deadline)) by {
      if IsIsoDate(t.deadline) { FormatIsoDate(t.deadline); }
    }
    assert IsIsoDate(t.reminder) ==> IsDisplayDate(FormatDate(t.reminder)) by {
      if IsIsoDate(t.reminder) { FormatIsoDate(t.reminder); }
    }
    DetailsView(t.name, Label(t.category), DescriptionText(t),
                FormatDate(t.deadline), FormatDate(t.reminder), t.id)
  }
}

=== FILE: home.dfy ===
/**
 * The task-list screen: the delete-confirmation modal, the pending id it
 * confirms, and the banner that shows the latest foreground push message.
 * The screen reads the root's task list and changes it only through the
 * root's `DeleteTask`.
 */
module Home {
  import opened Wrappers
  import opened Types
  import opened JsString
  import opened AppRoot

  /** The notification part of a push message. */
  datatype Notification = Notification(title: Option<string>, body: Option<string>)

  /** A push message received while the app is in the foreground. */
  datatype RemoteMessage = RemoteMessage(notification: Option<Notification>)

  const DefaultBanner: string := "Novo sporočilo"

  /** The banner text for a notification: its body, or a default when the body is empty or missing. */
  function BannerText(n: Notification): (r: string)
    ensures r != []
    ensures Truthy(n.body) ==> r == n.body.value
    ensures !Truthy(n.body) ==> r == DefaultBanner
  {
    OrElse(n.body, DefaultBanner)
  }

  class HomeScreen {
    const app: App
    var modalVisible: bool
    var taskToDelete: Option<string>
    var notificationMessage: Option<string>

    constructor (app: App)
      ensures this.app == app
      ensures !modalVisible && taskToDelete == None && notificationMessage == None
    {
      this.app := app;
      modalVisible := false;
      taskToDelete := None;
      notificationMessage := None;
    }

    /** The banner is rendered while the message is truthy. */
    predicate BannerShown()
      reads this
    {
      Truthy(notificationMessage)
    }

    /** A swipe asks to delete `id`: remember it and open the modal. */
    method ConfirmDelete(id: string)
      modifies this`taskToDelete, this`modalVisible
      ensures taskToDelete == Some(id) && modalVisible
    {
      taskToDelete := Some(id);
      modalVisible := true;
    }

    /**
     * The user confirms. A truthy pending id is passed to the root's delete
     * exactly once and then cleared; a missing or empty one is neither
     * deleted nor cleared. The modal closes either way.
     */
    method HandleConfirmDelete(removal: Outcome<()>) returns (requested: Option<string>)
      modifies this`taskToDelete, this`modalVisible, app`tasks
      ensures requested == if Truthy(old(taskToDelete)) then old(taskToDelete) else None
      ensures taskToDelete == if Truthy(old(taskToDelete)) then None else old(taskToDelete)
      ensures !modalVisible
      ensures requested.Some? && removal.Success? ==> app.tasks == WithoutId(old(app.tasks), requested.value)
      ensures requested.None? || removal.Failure? ==> app.tasks == old(app.tasks)
    {
      requested := None;
      if Truthy(taskToDelete) {
        requested := taskToDelete;
        app.DeleteTask(taskToDelete.value, removal);
        taskToDelete := None;
      }
      modalVisible := false;
    }

    /** The user cancels: forget the pending id and close the modal; nothing is deleted. */
    method HandleCancelDelete()
      modifies this`taskToDelete, this`modalVisible
      ensures taskToDelete == None && !modalVisible
    {
      taskToDelete := None;
      modalVisible := false;
    }

    /** A foreground message with a notification replaces the banner; one without leaves it. */
    method OnForegroundMessage(message: RemoteMessage)
      modifies this`notificationMessage
      ensures message.notification.Some? ==>
        notificationMessage == Some(BannerText(message.notification.value)) && BannerShown()
      ensures message.notification.None? ==> notificationMessage == old(notificationMessage)
    {
      if message.notification.Some? {
        notificationMessage := Some(BannerText(message.notification.value));
      }
    }
  }

  /**
   * Opening the confirmation and then cancelling leaves the task list as it
   * was and the modal idle.
   */
  method ConfirmThenCancel(tasks: seq<Task>, id: string) returns (after: seq<Task>, idle: bool)
    ensures after == tasks && idle
  {
    var app := new App();
    app.tasks := tasks;
    var home := new HomeScreen(app);
    home.ConfirmDelete(id);
    home.HandleCancelDelete();
    after := app.tasks;
    idle := !home.modalVisible && home.taskToDelete == None;
  }
}

=== FILE: js_string.dfy ===
/**
 * The handful of JavaScript string and truthiness rules the screens rely on:
 * `String.prototype.split` with a non-empty separator, `Array.prototype.join`,
 * `String.prototype.trim`, and the truthiness of an optional string.
 */
module JsString {
  import opened Wrappers

  /** JavaScript truthiness of a value of type `string | null | undefined`. */
  predicate Truthy(s: Option<string>) {
    s.Some? && s.value != []
  }

  /** The JavaScript expression `s || fallback` where `s` is an optional string. */
  function OrElse(s: Option<string>, fallback: string): (r: string)
    ensures Truthy(s) ==> r == s.value
    ensures !Truthy(s) ==> r == fallback
  {
    if Truthy(s) then s.value else fallback
  }

  /** `s` begins with `prefix`. */
  predicate StartsWith(s: string, prefix: string) {
    |prefix| <= |s| && s[..|prefix|] == prefix
  }

  /**
   * `s.split(sep)` for a non-empty separator: the pieces between the
   * non-overlapping occurrences of `sep`, found left to right.
   */
  function Split(s: string, sep: string): (parts: seq<string>)
    requires sep != []
    ensures |parts| >= 1
    decreases |s|
  {
    if s == [] then [[]]
    else if StartsWith(s, sep) then [[]] + Split(s[|sep|..], sep)
    else
      var rest := Split(s[1..], sep);
      [[s[0]] + rest[0]] + rest[1..]
  }

  /** `parts.join(sep)`. */
  function Join(parts: seq<string>, sep: string): string {
    if |parts| == 0 then []
    else if |parts| == 1 then parts[0]
    else parts[0] + sep + Join(parts[1..], sep)
  }

  /** Putting a character in front of the first piece puts it in front of the join. */
  lemma JoinConsFirst(c: char, parts: seq<string>, sep: string)
    requires |parts| >= 1
    ensures Join([[c] + parts[0]] + parts[1..], sep) == [c] + Join(parts, sep)
  {
    var q := [[c] + parts[0]] + parts[1..];
    if |parts| > 1 {
      assert q[1..] == parts[1..];
    }
  }

  /** An empty first piece contributes only the separator to the join. */
  lemma JoinEmptyFirst(parts: seq<string>, sep: string)
    requires |parts| >= 1
    ensures Join([[]] + parts, sep) == sep + Join(parts, sep)
  {
    assert ([[]] + parts)[1..] == parts;
  }

  /** Joining the pieces of a split with the same separator gives the string back. */
  lemma {:induction false} JoinSplit(s: string, sep: string)
    requires sep != []
    ensures Join(Split(s, sep), sep) == s
    decreases |s|
  {
    if s == [] {
    } else if StartsWith(s, sep) {
      var tail := Split(s[|sep|..], sep);
      assert Split(s, sep) == [[]] + tail;
      JoinSplit(s[|sep|..], sep);
      JoinEmptyFirst(tail, sep);
      assert s == s[..|sep|] + s[|sep|..];
    } else {
      var rest := Split(s[1..], sep);
      assert Split(s, sep) == [[s[0]] + rest[0]] + rest[1..];
      JoinSplit(s[1..], sep);
      JoinConsFirst(s[0], rest, sep);
      assert s == [s[0]] + s[1..];
    }
  }

  /** A string in which the separator cannot start is a single piece. */
  lemma {:induction false} SplitWithoutSeparator(a: string, sep: string)
    requires sep != [] && sep[0] !in a
    ensures Split(a, sep) == [a]
    decreases |a|
  {
    if a != [] {
      assert !StartsWith(a, sep) by {
        if |sep| <= |a| { assert a[..|sep|][0] == a[0]; }
      }
      SplitWithoutSeparator(a[1..], sep);
      assert [a[0]] + a[1..] == a;
    }
  }

  /** A leading piece in which the separator cannot start is split off whole. */
  lemma {:induction false} SplitPiece(a: string, sep: string, rest: string)
    requires sep != [] && sep[0] !in a
    ensures Split(a + sep + rest, sep) == [a] + Split(rest, sep)
    decreases |a|
  {
    var s := a + sep + rest;
    if a == [] {
      assert s == sep + rest;
      assert StartsWith(s, sep) by { assert s[..|sep|] == sep; }
      assert s[|sep|..] == rest;
    } else {
      assert !StartsWith(s, sep) by {
        assert |sep| <= |s| ==> s[..|sep|][0] == a[0];
      }
      assert s[1..] == a[1..] + sep + rest;
      SplitPiece(a[1..], sep, rest);
      assert [a[0]] + a[1..] == a;
    }
  }

  /**
   * Splitting a join recovers the pieces, provided no piece contains the
   * separator's first character.
   */
  lemma {:induction false} SplitJoin(parts: seq<string>, sep: string)
    requires sep != [] && |parts| >= 1
    requires forall i :: 0 <= i < |parts| ==> sep[0] !in parts[i]
    ensures Split(Join(parts, sep), sep) == parts
    decreases |parts|
  {
    if |parts| == 1 {
      SplitWithoutSeparator(parts[0], sep);
    } else {
      SplitJoin(parts[1..], sep);
      SplitPiece(parts[0], sep, Join(parts[1..], sep));
    }
  }

  /** What the first piece of a split says about the string it came from. */
  ghost predicate IsFirstPiece(s: string, sep: string, parts: seq<string>)
    requires |parts| >= 1
  {
    var n := |parts[0]|;
    && n <= |s| && parts[0] == s[..n]
    && (|parts| == 1 ==> n == |s|)
    && (|parts| > 1 ==> StartsWith(s[n..], sep))
    && (|sep| == 1 ==> sep[0] !in parts[0])
  }

  /** Prepending a character that does not start the separator keeps the first-piece facts. */
  lemma FirstPieceStep(s: string, sep: string, rest: seq<string>)
    requires s != [] && sep != [] && |rest| >= 1
    requires !StartsWith(s, sep)
    requires IsFirstPiece(s[1..], sep, rest)
    ensures IsFirstPiece(s, sep, [[s[0]] + rest[0]] + rest[1..])
  {
    var n := |rest[0]|;
    assert [s[0]] + rest[0] == s[..n + 1];
    assert s[n + 1..] == s[1..][n..];
    if |sep| == 1 {
      assert s[..1] == [s[0]] && sep == [sep[0]];
    }
  }

  /**
   * The first piece of a split is a prefix of the string, and is the whole
   * string or is followed by the separator; a one-character separator does
   * not occur in it.
   */
  lemma {:induction false} SplitFirst(s: string, sep: string)
    requires sep != []
    ensures IsFirstPiece(s, sep, Split(s, sep))
    decreases |s|
  {
    if s == [] {
    } else if StartsWith(s, sep) {
      assert Split(s, sep) == [[]] + Split(s[|sep|..], sep);
    } else {
      var rest := Split(s[1..], sep);
      assert Split(s, sep) == [[s[0]] + rest[0]] + rest[1..];
      SplitFirst(s[1..], sep);
      FirstPieceStep(s, sep, rest);
    }
  }

  /**
   * The characters `String.prototype.trim` removes: ECMAScript's WhiteSpace
   * (tab, vertical tab, form feed, space, no-break space, the byte order mark
   * and the Unicode space separators) and LineTerminator characters.
   */
  predicate IsWhitespace(c: char) {
    c in {'\t', '\n', '\U{000B}', '\U{000C}', '\r', ' ', '\U{00A0}', '\U{1680}',
          '\U{2000}', '\U{2001}', '\U{2002}', '\U{2003}', '\U{2004}', '\U{2005}',
          '\U{2006}', '\U{2007}', '\U{2008}', '\U{2009}', '\U{200A}',
          '\U{2028}', '\U{2029}', '\U{202F}', '\U{205F}', '\U{3000}', '\U{FEFF}'}
  }

  /** `s` with its leading whitespace removed. */
  function TrimStart(s: string): (r: string)
    ensures |r| <= |s| && r == s[|s| - |r|..]
    ensures forall i :: 0 <= i < |s| - |r| ==> IsWhitespace(s[i])
    ensures r != [] ==> !IsWhitespace(r[0])
  {
    if s != [] && IsWhitespace(s[0]) then TrimStart(s[1..]) else s
  }

  /** `s` with its trailing whitespace removed. */
  function TrimEnd(s: string): (r: string)
    ensures |r| <= |s| && r == s[..|r|]
    ensures forall i :: |r| <= i < |s| ==> IsWhitespace(s[i])
    ensures r != [] ==> !IsWhitespace(r[|r| - 1])
  {
    if s != [] && IsWhitespace(s[|s| - 1]) then TrimEnd(s[..|s| - 1]) else s
  }

  /** The characters trimming keeps: a slice of `s` with only whitespace outside it. */
  ghost predicate IsTrimSlice(s: string, r: string, i: nat, j: nat) {
    && i <= j <= |s| && r == s[i..j]
    && (forall k :: 0 <= k < i ==> IsWhitespace(s[k]))
    && (forall k :: j <= k < |s| ==> IsWhitespace(s[k]))
  }

  /** A prefix of a suffix, with only whitespace cut off either side, is a trim slice. */
  lemma SliceOfSuffix(s: string, a: string, r: string)
    requires |a| <= |s| && a == s[|s| - |a|..]
    requires |r| <= |a| && r == a[..|r|]
    requires forall k :: 0 <= k < |s| - |a| ==> IsWhitespace(s[k])
    requires forall m :: |r| <= m < |a| ==> IsWhitespace(a[m])
    ensures IsTrimSlice(s, r, |s| - |a|, |s| - |a| + |r|)
  {
    var i := |s| - |a|;
    var j := i + |r|;
    assert s[i..j] == r by {
      forall k | 0 <= k < |r|
        ensures s[i..j][k] == r[k]
      {
        assert s[i + k] == a[k];
      }
    }
    forall k | j <= k < |s|
      ensures IsWhitespace(s[k])
    {
      assert s[k] == a[k - i];
    }
  }

  lemma TrimSlice(s: string)
    ensures IsTrimSlice(s, TrimEnd(TrimStart(s)), |s| - |TrimStart(s)|,
                        |s| - |TrimStart(s)| + |TrimEnd(TrimStart(s))|)
  {
    SliceOfSuffix(s, TrimStart(s), TrimEnd(TrimStart(s)));
  }

  /**
   * `s.trim()`: the input with its leading and trailing whitespace removed and
   * nothing else. What is left neither starts nor ends with whitespace, and a
   * string that already neither starts nor ends with it is left as it is.
   */
  function Trim(s: string): (r: string)
    ensures exists i: nat, j: nat :: IsTrimSlice(s, r, i, j)
    ensures r != [] ==> !IsWhitespace(r[0]) && !IsWhitespace(r[|r| - 1])
    ensures s != [] && !IsWhitespace(s[0]) && !IsWhitespace(s[|s| - 1]) ==> r == s
  {
    TrimSlice(s);
    TrimEnd(TrimStart(s))
  }

  /** A string trims to nothing exactly when every character of it is whitespace. */
  lemma TrimEmptyIff(s: string)
    ensures Trim(s) == [] <==> forall i :: 0 <= i < |s| ==> IsWhitespace(s[i])
  {
  }
}

=== FILE: login.dfy ===
/**
 * The login screen: the guard on the two fields, the `loading` flag around
 * the sign-in call, and the button that flag drives.
 */
module Login {
  import opened Wrappers
  import opened Types
  import opened JsString

  /** The arguments of the sign-in call. */
  datatype Credentials = Credentials(email: string, password: string)

  const MissingFieldsAlert: Alert := Alert("Napaka", "Prosim vnesite e-poštni naslov in geslo")

  const SignInFailedAlert: Alert :=
    Alert("Napaka pri prijavi", "Preverite e-poštni naslov in geslo ter poskusite ponovno.")

  /** The guard: the trimmed email is empty or the (untrimmed) password is. */
  predicate MissingFields(email: string, password: string) {
    Trim(email) == [] || password == []
  }

  /**
   * The guard rejects exactly an all-whitespace email or an empty password;
   * a password of whitespace only gets through.
   */
  lemma MissingFieldsIff(email: string, password: string)
    ensures MissingFields(email, password) <==>
      (forall i :: 0 <= i < |email| ==> IsWhitespace(email[i])) || password == []
  {
  }

  class LoginScreen {
    var email: string
    var password: string
    var loading: bool

    constructor ()
      ensures email == [] && password == [] && !loading
    {
      email, password, loading := [], [], false;
    }

    method SetEmail(value: string)
      modifies this`email
      ensures email == value
    {
      email := value;
    }

    method SetPassword(value: string)
      modifies this`password
      ensures password == value
    {
      password := value;
    }

    /** The button does nothing while a sign-in is in flight. */
    predicate ButtonDisabled()
      reads this
    {
      loading
    }

    function ButtonLabel(): (text: string)
      reads this
      ensures loading ==> text == "Prijavljanje..."
      ensures !loading ==> text == "Prijava"
    {
      if loading then "Prijavljanje..." else "Prijava"
    }

    /**
     * Submit. A missing field shows an alert and calls nothing. Otherwise
     * `loading` is raised, the provider is called with the email as typed,
     * and a failure lowers `loading` again and shows an alert; on success
     * `loading` stays raised and the auth observer takes over.
     */
    method HandleLogin(signIn: Outcome<User>) returns (call: Option<Credentials>, alert: Option<Alert>)
      modifies this`loading
      ensures MissingFields(email, password) ==>
        call == None && alert == Some(MissingFieldsAlert) && loading == old(loading)
      ensures !MissingFields(email, password) ==> call == Some(Credentials(email, password))
      ensures !MissingFields(email, password) && signIn.Success? ==> loading && alert == None
      ensures !MissingFields(email, password) && signIn.Failure? ==> !loading && alert == Some(SignInFailedAlert)
    {
      if MissingFields(email, password) {
        return None, Some(MissingFieldsAlert);
      }
      loading := true;
      call := Some(Credentials(email, password));
      alert := None;
      if signIn.Failure? {
        loading := false;
        alert := Some(SignInFailedAlert);
      }
    }
  }

  /** Submitting with an empty password shows the alert and never calls the provider. */
  method EmptyPasswordScenario(email: string, signIn: Outcome<User>) returns (call: Option<Credentials>, alert: Option<Alert>)
    ensures call == None && alert == Some(MissingFieldsAlert)
  {
    var screen := new LoginScreen();
    screen.SetEmail(email);
    call, alert := screen.HandleLogin(signIn);
  }
}

=== FILE: settings.dfy ===
/**
 * The settings screen's motivational-messages switch: a per-user boolean in
 * the device's key-value storage, mirrored by a subscription to one push
 * topic. The local value is written only after the remote call succeeds,
 * and every mount with a stored value re-issues the matching remote call.
 */
module Settings {
  import opened Wrappers
  import opened Types

  const MotivationTopic: string := "motivational_messages"

  const KeyPrefix: string := "motivational_messages_"

  /** The storage key of a user's preference. */
  function PreferenceKey(uid: string): (key: string)
    ensures |key| == |KeyPrefix| + |uid| && key[..|KeyPrefix|] == KeyPrefix && key[|KeyPrefix|..] == uid
  {
    KeyPrefix + uid
  }

  /** Different users have different keys, so one user's preference never touches another's. */
  lemma PreferenceKeyInjective(a: string, b: string)
    ensures PreferenceKey(a) == PreferenceKey(b) ==> a == b
  {
  }

  /** A call to the push transport. */
  datatype TopicCall = Subscribe(topic: string) | Unsubscribe(topic: string)

  /** The call that makes the remote side match `value`. */
  function CallFor(value: bool): (c: TopicCall)
    ensures c.topic == MotivationTopic
    ensures c.Subscribe? <==> value
  {
    if value then Subscribe(MotivationTopic) else Unsubscribe(MotivationTopic)
  }

  function SavedAlert(value: bool): (a: Alert)
    ensures a.title == "Nastavitve shranjene"
    ensures value ==> a.message == "Prejemanje motivacijskih sporočil vključeno."
    ensures !value ==> a.message == "Prejemanje motivacijskih sporočil izključeno."
  {
    Alert("Nastavitve shranjene",
          "Prejemanje motivacijskih sporočil " + (if value then "vključeno" else "izključeno") + ".")
  }

  const ToggleFailedAlert: Alert :=
    Alert("Napaka", "Prišlo je do napake pri spreminjanju nastavitev. Poskusite znova.")

  /** The value stored for the user, if a user is signed in and a value was ever stored. */
  function SavedSetting(storage: map<string, bool>, user: Option<User>): (saved: Option<bool>)
    ensures saved.Some? <==> user.Some? && PreferenceKey(user.value.uid) in storage
    ensures saved.Some? ==> saved.value == storage[PreferenceKey(user.value.uid)]
  {
    if user.Some? && PreferenceKey(user.value.uid) in storage
    then Some(storage[PreferenceKey(user.value.uid)])
    else None
  }

  /**
   * Storing a value for one user is what that user's next mount loads, and
   * leaves every other user's saved setting as it was.
   */
  lemma StoreThenLoad(storage: map<string, bool>, uid: string, value: bool, other: string)
    requires other != uid
    ensures SavedSetting(storage[PreferenceKey(uid) := value], Some(User(uid))) == Some(value)
    ensures SavedSetting(storage[PreferenceKey(uid) := value], Some(User(other)))
         == SavedSetting(storage, Some(User(other)))
  {
  }

  /** What outlives a mount of the screen: the device storage and the topic subscription. */
  class Device {
    var storage: map<string, bool>
    var subscribed: bool

    constructor (storage: map<string, bool>, subscribed: bool)
      ensures this.storage == storage && this.subscribed == subscribed
    {
      this.storage := storage;
      this.subscribed := subscribed;
    }
  }

  class SettingsScreen {
    const device: Device
    const user: Option<User>
    var receive: bool

    /** Mounting the screen: the switch starts off. */
    constructor (device: Device, user: Option<User>)
      ensures this.device == device && this.user == user && !receive
    {
      this.device := device;
      this.user := user;
      receive := false;
    }

    /**
     * On mount: with a stored value the switch takes it and the matching
     * remote call is issued (its failure is not caught, so the switch keeps
     * the value); with none, nothing happens.
     */
    method LoadSubscriptionStatus(remote: Outcome<()>) returns (call: Option<TopicCall>)
      modifies this`receive, device`subscribed
      ensures SavedSetting(device.storage, user).None? ==>
        call == None && receive == old(receive) && device.subscribed == old(device.subscribed)
      ensures SavedSetting(device.storage, user).Some? ==>
        var saved := SavedSetting(device.storage, user).value;
        && receive == saved
        && call == Some(CallFor(saved))
        && device.subscribed == (if remote.Success? then saved else old(device.subscribed))
    {
      var saved := SavedSetting(device.storage, user);
      call := None;
      if saved.Some? {
        receive := saved.value;
        call := Some(CallFor(saved.value));
        if remote.Success? {
          device.subscribed := saved.value;
        }
      }
    }

    /**
     * The switch is flipped to `value`. With nobody signed in nothing
     * happens. Otherwise the topic is (un)subscribed. On remote failure the
     * switch, the subscription and the stored preference stay as they were and
     * an error alert is shown. On remote success the switch and the
     * subscription become `value` before the preference is written; if that
     * local write fails, the stored preference stays, the switch and the
     * subscription keep `value`, and the same error alert is shown. Only when
     * both succeed is the preference stored and the confirmation shown.
     */
    method ToggleMotivationalMessages(value: bool, remote: Outcome<()>, localWrite: Outcome<()>)
      returns (call: Option<TopicCall>, alert: Option<Alert>)
      modifies this`receive, device
      ensures user.None? ==>
        && call == None && alert == None && receive == old(receive)
        && device.storage == old(device.storage) && device.subscribed == old(device.subscribed)
      ensures user.Some? ==> call == Some(CallFor(value))
      ensures user.Some? && remote.Success? ==> receive == value && device.subscribed == value
      ensures user.Some? && remote.Success? && localWrite.Success? ==>
        && device.storage == old(device.storage)[PreferenceKey(user.value.uid) := value]
        && alert == Some(SavedAlert(value))
      ensures user.Some? && remote.Success? && localWrite.Failure? ==>
        && device.storage == old(device.storage)
        && alert == Some(ToggleFailedAlert)
      ensures user.Some? && remote.Failure? ==>
        && receive == old(receive) && device.subscribed == old(device.subscribed)
        && device.storage == old(device.storage)
        && alert == Some(ToggleFailedAlert)
    {
      if user.None? {
        return None, None;
      }
      call := Some(CallFor(value));
      if remote.Failure? {
        return call, Some(ToggleFailedAlert);
      }
      device.subscribed := value;
      receive := value;
      if localWrite.Success? {
        device.storage := device.storage[PreferenceKey(user.value.uid) := value];
        alert := Some(SavedAlert(value));
      } else {
        alert := Some(ToggleFailedAlert);
      }
    }
  }

  /**
   * Switching the messages on and then mounting the screen again shows the
   * switch on and re-issues the subscribe call.
   */
  method ToggleOnThenRemount(storage: map<string, bool>, subscribed: bool, u: User)
    returns (shown: bool, call: Option<TopicCall>)
    ensures shown && call == Some(Subscribe(MotivationTopic))
  {
    var device := new Device(storage, subscribed);
    var first := new SettingsScreen(device, Some(u));
    var _, _ := first.ToggleMotivationalMessages(true, Success(()), Success(()));
    var second := new SettingsScreen(device, Some(u));
    call := second.LoadSubscriptionStatus(Success(()));
    shown := second.receive;
  }

  /**
   * With nothing stored, switching the messages on where the remote call
   * succeeds but the local write fails leaves the device subscribed. The next
   * mount finds no stored preference, so it shows the switch off and issues
   * no call: the remote state and the shown switch disagree.
   */
  method LocalWriteFailsThenRemount(u: User) returns (subscribed: bool, shown: bool, call: Option<TopicCall>)
    ensures subscribed && !shown && call == None
  {
    var device := new Device(map[], false);
    var first := new SettingsScreen(device, Some(u));
    var _, alert := first.ToggleMotivationalMessages(true, Success(()), Failure);
    assert alert == Some(ToggleFailedAlert);
    var second := new SettingsScreen(device, Some(u));
    call := second.LoadSubscriptionStatus(Success(()));
    subscribed, shown := device.subscribed, second.receive;
  }
}

=== FILE: task_store.dfy ===
/**
 * The `tasks` collection of the document store, seen through the three
 * operations the app uses: insert with a store-assigned key, delete by key,
 * and the query "every document whose userId equals uid".
 */
module TaskStore {
  import opened Wrappers
  import opened Types

  /** The fields of one stored document; the document key is not among them. */
  datatype Fields = Fields(
    name: string,
    description: string,
    category: TaskCategory,
    deadline: string,
    reminder: string,
    userId: Option<string>)

  /** A document as a query returns it: its key and its fields. */
  datatype Doc = Doc(id: string, data: Fields)

  /** The collection: document key to fields. */
  type Collection = map<string, Fields>

  /** The record the app writes when it adds a task: every field but the local id. */
  function StoredRecord(t: Task): Fields {
    Fields(t.name, t.description, t.category, t.deadline, t.reminder, t.userId)
  }

  /** The task the app builds from a returned document: `{id: doc.id, ...doc.data()}`. */
  function FromDoc(d: Doc): Task {
    Task(d.id, d.data.name, d.data.description, d.data.category,
         d.data.deadline, d.data.reminder, d.data.userId)
  }

  /** Writing a task and reading its document back gives the task under the store's key. */
  lemma StoredRecordRoundTrip(t: Task, key: string, d: Doc)
    ensures FromDoc(Doc(key, StoredRecord(t))) == t.(id := key)
    ensures FromDoc(d).id == d.id && StoredRecord(FromDoc(d)) == d.data
  {
  }

  /** The query result mapped to tasks, one per document, in the order returned. */
  function FromDocs(docs: seq<Doc>): (ts: seq<Task>)
    ensures |ts| == |docs|
    ensures forall i :: 0 <= i < |docs| ==> ts[i] == FromDoc(docs[i])
  {
    seq(|docs|, i requires 0 <= i < |docs| => FromDoc(docs[i]))
  }

  /**
   * `docs` is a correct answer to "userId == uid" on `store`: every returned
   * document is stored and owned by uid, every such document is returned, and
   * none is returned twice. The order is the store's and is left open.
   */
  ghost predicate IsQueryAnswer(store: Collection, uid: string, docs: seq<Doc>) {
    && (forall i :: 0 <= i < |docs| ==>
          docs[i].id in store && store[docs[i].id] == docs[i].data && docs[i].data.userId == Some(uid))
    && (forall k :: k in store && store[k].userId == Some(uid) ==>
          exists i :: 0 <= i < |docs| && docs[i].id == k)
    && (forall i, j :: 0 <= i < j < |docs| ==> docs[i].id != docs[j].id)
  }

  /** A listing never holds another user's task. */
  lemma ListingIsOwned(store: Collection, uid: string, docs: seq<Doc>)
    requires IsQueryAnswer(store, uid, docs)
    ensures forall t :: t in FromDocs(docs) ==> t.userId == Some(uid)
  {
  }

  /** A user who owns no document gets the empty listing, and only then. */
  lemma EmptyListing(store: Collection, uid: string, docs: seq<Doc>)
    requires IsQueryAnswer(store, uid, docs)
    ensures docs == [] <==> forall k :: k in store ==> store[k].userId != Some(uid)
  {
    if docs != [] {
      assert store[docs[0].id].userId == Some(uid);
    }
  }

  /**
   * After a task is created for uid under a new key, listing uid's tasks
   * yields exactly one record with that key, equal to the task except for
   * the key.
   */
  lemma CreateThenList(store: Collection, key: string, t: Task, uid: string, docs: seq<Doc>)
    requires t.userId == Some(uid)
    requires IsQueryAnswer(store[key := StoredRecord(t)], uid, docs)
    ensures exists i :: 0 <= i < |docs| && docs[i].id == key && FromDocs(docs)[i] == t.(id := key)
    ensures forall i, j :: 0 <= i < |docs| && 0 <= j < |docs| && docs[i].id == key && docs[j].id == key ==> i == j
  {
    var s := store[key := StoredRecord(t)];
    assert key in s && s[key].userId == Some(uid);
    var i :| 0 <= i < |docs| && docs[i].id == key;
    assert docs[i].data == StoredRecord(t);
    assert FromDocs(docs)[i] == t.(id := key);
  }

  /** After a delete, no listing holds the deleted key. */
  lemma DeleteThenList(store: Collection, key: string, uid: string, docs: seq<Doc>)
    requires IsQueryAnswer(store - {key}, uid, docs)
    ensures forall i :: 0 <= i < |docs| ==> docs[i].id != key
  {
  }

  /**
   * A task written without an owner is never part of any user's listing, so
   * it disappears from the list at the next refresh.
   */
  lemma UnownedTaskNotListed(store: Collection, key: string, t: Task, uid: string, docs: seq<Doc>)
    requires t.userId == None
    requires IsQueryAnswer(store[key := StoredRecord(t)], uid, docs)
    ensures forall i :: 0 <= i < |docs| ==> docs[i].id != key
  {
  }
}

=== FILE: types.dfy ===
/** The app's task record, its category enumeration, the signed-in user and alerts. */
module Types {
  import opened Wrappers

  /**
   * The six task categories. The label of the first is "Šola" (school); the
   * type declaration spells it with a mis-encoded first letter, the form's
   * picker with the intended one, and both stand for this one constructor.
   */
  datatype TaskCategory = Sola | Delo | Osebno | Nakupi | Zdravje | Drugo

  /** The string value a category has in the app and in the store. */
  function Label(c: TaskCategory): string {
    match c
    case Sola => "Šola"
    case Delo => "Delo"
    case Osebno => "Osebno"
    case Nakupi => "Nakupi"
    case Zdravje => "Zdravje"
    case Drugo => "Drugo"
  }

  /** Every category, each once, in the order the type lists them. */
  const AllCategories: seq<TaskCategory> := [Sola, Delo, Osebno, Nakupi, Zdravje, Drugo]

  /** There are exactly six categories, and their labels tell them apart. */
  lemma SixCategories(c: TaskCategory, d: TaskCategory)
    ensures |AllCategories| == 6 && c in AllCategories
    ensures forall i, j :: 0 <= i < j < |AllCategories| ==> AllCategories[i] != AllCategories[j]
    ensures Label(c) == Label(d) ==> c == d
  {
  }

  /**
   * A to-do item. Only the owner is optional; `deadline` and `reminder` are
   * plain strings, shaped `YYYY-MM-DD` only by the form that produces them.
   */
  datatype Task = Task(
    id: string,
    name: string,
    description: string,
    category: TaskCategory,
    deadline: string,
    reminder: string,
    userId: Option<string>)

  /** The identity provider's signed-in user; the app reads only its uid. */
  datatype User = User(uid: string)

  /** A modal alert: a title and a message. */
  datatype Alert = Alert(title: string, message: string)

  predicate IsDigit(c: char) {
    '0' <= c <= '9'
  }

  /** A calendar date written `YYYY-MM-DD`. */
  predicate IsIsoDate(s: string) {
    && |s| == 10
    && s[4] == '-' && s[7] == '-'
    && forall i :: 0 <= i < 10 && i != 4 && i != 7 ==> IsDigit(s[i])
  }
}

=== FILE: wrappers.dfy ===
/** Optional values and the outcome of a call into an external service. */
module Wrappers {

  /** A value that may be absent: `null`/`undefined` in the app's TypeScript. */
  datatype Option<+T> = None | Some(value: T)

  /**
   * What an awaited remote call (the document store, the identity provider,
   * the push transport) produced: a value, or a rejected promise.
   */
  datatype Outcome<+T> = Success(value: T) | Failure
}
